=== FILE: README.md ===
# Padding planner of the BigBlueButton recording pipeline, in Dafny

The recording pipeline rebuilds a continuous webcam or deskshare timeline
from segments that were captured only part of the time. Its planner,
`BigBlueButton.generate_video_paddings` and
`BigBlueButton.generate_deskshare_paddings`, takes the recorded segments
(`{:start_timestamp, :stop_timestamp}`, both inclusive) and the timeline
bounds `first_timestamp` and `last_timestamp`. It does three things:

1. It sorts the segments by start in place.
2. It emits a padding record `{:start_timestamp, :stop_timestamp, :gap => true, :stream}`
   for each positive gap: before the first segment, between each
   neighbouring pair, and after the last segment.
3. It names each padding's blank filler video `blank-beginning.flv`,
   `blank-<i>.flv` or `blank-end.flv`. The deskshare planner puts `ds-` in
   front of each name.

The model has these modules:

- `Timeline`: segments (`Event`), padding records (`Padding`), the places a
  padding can go (`Slot`), and the outcome of a call (`Result`).
- `EventSort`: the sort by start, as an insertion sort. It is proved sorted
  and a permutation. Any two sorted orders agree when no two events share a
  start.
- `Decimal` and `StreamNames`:
  - the filler names, with the `"#{i}"` rendering of the loop index;
  - a parser that reads a name back to its slot, so different slots never
    share a name.
- `GapPlanner`: the planner, written once over a naming of slots.
  - `PlanPaddings` is the planner as a function.
  - `PlanPaddingsLoop` is the source's `while` loop as a method, proved
    equal to `PlanPaddings`.
  - `PositiveSlots` is a reference plan: walk the slots in time order and
    keep those whose gap length is positive. `PlanMatchesSlots` proves the
    planner's list equals the reference plan.
- `PlannerProperties`: what the list means on the timeline:
  - order;
  - coverage of `[first, last)`;
  - `last` left uncovered;
  - no overlap with well-formed segments that share no timestamp;
  - touching and overlapping neighbours.
- `VideoPaddings`: the two source functions. They share the planner and
  differ only in the prefix, `""` or `"ds-"`. The module also holds:
  - the "emitted exactly when" lemmas, with the literal filler names;
  - the effect of input order;
  - worked examples.

Some consequences of the code that a reader might not expect:

- **Touching neighbours.** Neighbours that touch (the next starts one tick
  after the previous stops) still get a padding, although no timestamp lies
  between them. Their gap length is 1, so the code's `> 0` test emits a
  padding that stops one tick before it starts. See
  `TouchingNeighboursStillPadded` and `ExampleTouchingSegments`.
- **Trailing padding.** It stops at `last_timestamp - 1`, so the trailing
  padding never covers `last`. When the events are well-formed and all stop
  before `last`, nothing covers it. The events and paddings together cover
  `[first, last - 1]` (`PaddingsCoverTimeline`, `PaddingsStayInTimeline`,
  `LastTimestampLeftUncovered`).
- **Overlapping segments.** When segments overlap, a padding can overlap a
  segment: in `ExampleTieOrderMatters` the padding `{6, 19}` overlaps the
  segment `{0, 10}`. When the segments are well-formed (`start <= stop`) and
  no two share a timestamp, whatever order they come in, no padding overlaps
  them (`PaddingsAvoidDisjointEvents`).
- **Filler names.** They carry the `.flv` suffix.
- **Empty input.** With no segments, `events[0]` is `nil` and the call
  raises. The model returns `Failure(NoEvents)`.

## Model

| member | source | states |
|---|---|---|
| VideoPaddings.GenerateVideoPaddings | record-and-playback/rap/lib/recordandplayback/generators/video.rb:79-107 | fails exactly when there are no events (the source dereferences `events[0]`); otherwise returns at most one padding per slot, so at most `n + 1`, each marked as a gap |
| VideoPaddings.GenerateDesksharePaddings | record-and-playback/rap/lib/recordandplayback/generators/video.rb:110-138 | the same for the deskshare planner |
| VideoPaddings.PaddingsFor | record-and-playback/rap/lib/recordandplayback/generators/video.rb:80-106 | the planner shared by both functions: sort, then plan; fails exactly on an empty list; otherwise at most `n + 1` paddings, all gaps |
| VideoPaddings.DeskshareMatchesVideo | record-and-playback/rap/lib/recordandplayback/generators/video.rb:110-138 | the deskshare planner fails exactly when the video planner fails; otherwise it returns the video list record by record with `ds-` put in front of each filler name: same bounds, same order, same length |
| VideoPaddings.NamerInjective | record-and-playback/rap/lib/recordandplayback/generators/video.rb:85-103 | under either prefix, different slots never get the same filler name |
| VideoPaddings.DeskshareNamesPrefixVideoNames | record-and-playback/rap/lib/recordandplayback/generators/video.rb:116-134 | every deskshare filler name is the video filler name of the same slot with `ds-` in front |
| VideoPaddings.PaddingNameReadsBack | record-and-playback/rap/lib/recordandplayback/generators/video.rb:83-104 | every padding's filler name parses back to a slot of the sorted events, and the padding is exactly the record that slot calls for |
| VideoPaddings.SlotEmitted | record-and-playback/rap/lib/recordandplayback/generators/video.rb:83-104 | a slot of the sorted events has its record in the list, and its name appears there, exactly when its gap length is positive |
| VideoPaddings.LeadingPaddingIff | record-and-playback/rap/lib/recordandplayback/generators/video.rb:83-86 | a padding named `blank-beginning.flv` (with the prefix) appears exactly when every event starts after `first` |
| VideoPaddings.NoPaddingBeyondLastPair | record-and-playback/rap/lib/recordandplayback/generators/video.rb:88-89 | no padding is named for an index `i` with no event at `i + 1`: the loop stops at the last pair |
| VideoPaddings.InteriorPaddingIff | record-and-playback/rap/lib/recordandplayback/generators/video.rb:88-99 | a padding named `blank-<i>.flv` appears exactly when `i + 1 < n` and, after sorting, event `i + 1` starts after event `i` stops |
| VideoPaddings.TrailingPaddingIff | record-and-playback/rap/lib/recordandplayback/generators/video.rb:101-104 | a padding named `blank-end.flv` appears exactly when the last event after sorting stops before `last` |
| VideoPaddings.EarliestStart | record-and-playback/rap/lib/recordandplayback/generators/video.rb:81-83 | the reference for the leading test: a start that no event starts before and that some event has |
| VideoPaddings.SortedHeadIsEarliestOf | record-and-playback/rap/lib/recordandplayback/generators/video.rb:81-83 | any sorted arrangement of the same events begins at the earliest start |
| VideoPaddings.SortedHeadIsEarliest | record-and-playback/rap/lib/recordandplayback/generators/video.rb:81-83 | `events[0]` after the sort starts at the earliest start |
| VideoPaddings.PaddingsInTimeOrder | record-and-playback/rap/lib/recordandplayback/generators/video.rb:83-106 | for well-formed events, every padding starts strictly after each earlier padding has both started and stopped |
| VideoPaddings.PaddingsCoverTimeline | record-and-playback/rap/lib/recordandplayback/generators/video.rb:83-104 | every timestamp `t` with `first <= t < last` lies in one of the events or in one of the paddings |
| VideoPaddings.LastTimestampLeftUncovered | record-and-playback/rap/lib/recordandplayback/generators/video.rb:101-104 | for well-formed events (`start <= stop`) that all stop before `last`, neither an event nor a padding covers `last` itself |
| VideoPaddings.PaddingsStayInTimeline | record-and-playback/rap/lib/recordandplayback/generators/video.rb:83-104 | for well-formed events (`start <= stop`) that all lie within `[first, last]`, every padding lies within `[first, last - 1]`; with `PaddingsCoverTimeline` and `LastTimestampLeftUncovered` this pins the covered timestamps exactly |
| VideoPaddings.PaddingsAvoidDisjointEvents | record-and-playback/rap/lib/recordandplayback/generators/video.rb:81-104 | for well-formed events passed in any order, no two of which share a timestamp, each padding lies wholly before or wholly after each event |
| VideoPaddings.SortedInputPlannedAsGiven | record-and-playback/rap/lib/recordandplayback/generators/video.rb:81 | events already sorted by start are planned in the order given |
| VideoPaddings.ReplanningSortedEventsIsStable | record-and-playback/rap/lib/recordandplayback/generators/video.rb:81 | calling the planner again on the array the first call sorted in place gives the same result |
| VideoPaddings.InputOrderIrrelevant | record-and-playback/rap/lib/recordandplayback/generators/video.rb:81 | when no two events share a start, every arrangement of the same events gives the same result |
| VideoPaddings.VideoNames | record-and-playback/rap/lib/recordandplayback/generators/video.rb:85-103 | the video filler names of the leading slot, the slot after index 0 and the trailing slot are `blank-beginning.flv`, `blank-0.flv` and `blank-end.flv` |
| VideoPaddings.DeskshareNames | record-and-playback/rap/lib/recordandplayback/generators/video.rb:116-134 | the same three names with `ds-` in front |
| VideoPaddings.ExampleGapsAllRound | record-and-playback/rap/lib/recordandplayback/generators/video.rb:79-107 | events `{10,50}`, `{80,120}` on `[0, 200]` give a leading `{0,9}`, an interior `{51,79}` and a trailing `{121,199}` padding |
| VideoPaddings.ExampleDeskshareGapsAllRound | record-and-playback/rap/lib/recordandplayback/generators/video.rb:110-138 | the same events give the same records named `ds-blank-beginning.flv`, `ds-blank-0.flv` and `ds-blank-end.flv` |
| VideoPaddings.ExampleUnsortedInput | record-and-playback/rap/lib/recordandplayback/generators/video.rb:81 | the same two events passed in reverse order give the same list |
| VideoPaddings.ExampleTouchingSegments | record-and-playback/rap/lib/recordandplayback/generators/video.rb:92-96 | touching events `{5,20}`, `{21,40}` on `[5, 40]` give the single padding `{21,20}` named `blank-0.flv` |
| VideoPaddings.ExampleTieOrderMatters | record-and-playback/rap/lib/recordandplayback/generators/video.rb:81 | two orders that both sort by start, differing only in two events with the same start, give different lists; in one of them the padding `{6, 19}` overlaps the event `{0, 10}` |
| GapPlanner.PlanPaddings | record-and-playback/rap/lib/recordandplayback/generators/video.rb:82-106 | the planner on events in the given order fails exactly when there are none |
| GapPlanner.PlanPaddingsLoop | record-and-playback/rap/lib/recordandplayback/generators/video.rb:82-106 | the source's statements run in order (leading test, `while` loop over pairs, trailing test) build exactly the list of `PlanPaddings` |
| GapPlanner.AppendInteriorPaddings | record-and-playback/rap/lib/recordandplayback/generators/video.rb:88-99 | the `while i < events.length - 1` loop appends exactly the interior paddings of all pairs to what was already there |
| GapPlanner.SlotAt | record-and-playback/rap/lib/recordandplayback/generators/video.rb:83-104 | every rank from `0` to `n` names a slot that exists for `n` events and has that rank |
| GapPlanner.PositiveSlots | record-and-playback/rap/lib/recordandplayback/generators/video.rb:83-104 | the reference plan: only slots that exist for these events, at most `n + 1 - k` of them from rank `k` on (one per rank is `PositiveSlotsOrdered`) |
| GapPlanner.PositiveSlotsSound | record-and-playback/rap/lib/recordandplayback/generators/video.rb:83-104 | every slot in the reference plan has a positive gap length |
| GapPlanner.PositiveSlotsOrdered | record-and-playback/rap/lib/recordandplayback/generators/video.rb:83-104 | the reference plan lists its slots in strictly increasing time order (leading, pairs by index, trailing) |
| GapPlanner.PositiveSlotsComplete | record-and-playback/rap/lib/recordandplayback/generators/video.rb:83-104 | every slot with a positive gap length is in the reference plan |
| GapPlanner.SlotPaddings | record-and-playback/rap/lib/recordandplayback/generators/video.rb:85-103 | one record per slot, in the slots' order, each the record that slot calls for |
| GapPlanner.InteriorMatchesSlots | record-and-playback/rap/lib/recordandplayback/generators/video.rb:88-104 | from pair `i` on, the loop and the trailing test emit exactly the reference records of the slots of rank `i + 1` onward |
| GapPlanner.PlanMatchesSlots | record-and-playback/rap/lib/recordandplayback/generators/video.rb:83-106 | the planner's list is the reference plan: the records of exactly the slots with a positive gap, each once, in time order |
| GapPlanner.PlanShape | record-and-playback/rap/lib/recordandplayback/generators/video.rb:83-106 | at most `n + 1` paddings, each with `:gap => true` |
| GapPlanner.PositiveSlotListed | record-and-playback/rap/lib/recordandplayback/generators/video.rb:83-104 | a slot with a positive gap length has its record in the list |
| GapPlanner.NamedSlotPositive | record-and-playback/rap/lib/recordandplayback/generators/video.rb:83-104 | with distinct slot names, a padding named after a slot belongs to a slot that exists, is that slot's record, and the slot's gap is positive |
| GapPlanner.SlotEmittedIff | record-and-playback/rap/lib/recordandplayback/generators/video.rb:83-104 | a slot's record is in the list, and with distinct names its name appears there, exactly when its gap length is positive |
| GapPlanner.Prefixed | record-and-playback/rap/lib/recordandplayback/generators/video.rb:110-138 | the same records, in the same order, each with the prefix put in front of its filler name |
| GapPlanner.InteriorPrefixed | record-and-playback/rap/lib/recordandplayback/generators/video.rb:119-130 | the loop under a naming that adds a prefix emits the same records with the prefix on each name |
| GapPlanner.PlanPrefixed | record-and-playback/rap/lib/recordandplayback/generators/video.rb:110-138 | two namings that differ by a prefix give the same plan up to that prefix on every filler name, and fail together |
| PlannerProperties.SlotPaddingsInOrder | record-and-playback/rap/lib/recordandplayback/generators/video.rb:83-104 | for sorted, well-formed events, the record of a later positive slot starts after an earlier one both starts and stops |
| PlannerProperties.PaddingsStrictlyOrdered | record-and-playback/rap/lib/recordandplayback/generators/video.rb:83-106 | for sorted, well-formed events, the starts in the list strictly increase and each padding stops before every later one starts |
| PlannerProperties.CoveredFrom | record-and-playback/rap/lib/recordandplayback/generators/video.rb:88-104 | a timestamp from the start of event `i` up to `last - 1` is covered by that event, by the padding after it, or further on |
| PlannerProperties.CoversUpToLast | record-and-playback/rap/lib/recordandplayback/generators/video.rb:83-104 | for events in any order, events and paddings together cover every timestamp in `[first, last - 1]` |
| PlannerProperties.LastTimestampUncovered | record-and-playback/rap/lib/recordandplayback/generators/video.rb:101-104 | for well-formed events (`start <= stop`) that all stop before `last`, nothing covers `last`: the trailing padding stops at `last - 1` |
| PlannerProperties.SlotPaddingAvoidsEvent | record-and-playback/rap/lib/recordandplayback/generators/video.rb:83-104 | for well-formed events in time order that share no timestamp, a positive slot's record lies wholly before or wholly after each event |
| PlannerProperties.PaddingsAvoidEvents | record-and-playback/rap/lib/recordandplayback/generators/video.rb:83-104 | for well-formed events in time order that share no timestamp, no padding overlaps any event |
| PlannerProperties.PaddingsWithinTimeline | record-and-playback/rap/lib/recordandplayback/generators/video.rb:83-104 | for well-formed events (`start <= stop`) that all lie within `[first, last]`, every padding starts at or after `first` and stops at or before `last - 1` |
| PlannerProperties.TouchingNeighboursStillPadded | record-and-playback/rap/lib/recordandplayback/generators/video.rb:92-96 | neighbours with `next.start == prev.stop + 1` still get the padding `{prev.stop + 1, prev.stop}`, which stops a tick before it starts |
| PlannerProperties.TouchingEndStillPadded | record-and-playback/rap/lib/recordandplayback/generators/video.rb:101-104 | a last event stopping at `last - 1` still gets the trailing padding `{last, last - 1}` |
| PlannerProperties.OverlapNotPadded | record-and-playback/rap/lib/recordandplayback/generators/video.rb:92-96 | with distinct names, neighbours that overlap or share a timestamp get no padding between them |
| EventSort.InsertSorted | record-and-playback/rap/lib/recordandplayback/generators/video.rb:81 | inserting into a list sorted by start keeps it sorted |
| EventSort.InsertPermutes | record-and-playback/rap/lib/recordandplayback/generators/video.rb:81 | inserting adds the event and keeps every other event |
| EventSort.SortByStart | record-and-playback/rap/lib/recordandplayback/generators/video.rb:81 | the result is sorted by start and is a permutation of the input |
| EventSort.SortKeepsEvents | record-and-playback/rap/lib/recordandplayback/generators/video.rb:81 | sorting keeps exactly the events it was given |
| EventSort.SortKeepsWellFormed | record-and-playback/rap/lib/recordandplayback/generators/video.rb:81 | sorting well-formed events gives well-formed events |
| EventSort.SortKeepsDisjoint | record-and-playback/rap/lib/recordandplayback/generators/video.rb:81 | sorting well-formed events that share no timestamp gives events that share no timestamp |
| EventSort.SortedDisjointIsSeparated | record-and-playback/rap/lib/recordandplayback/generators/video.rb:81 | sorted well-formed events that share no timestamp are in chronological order, each stopping before any later one starts |
| EventSort.SortSortedIsIdentity | record-and-playback/rap/lib/recordandplayback/generators/video.rb:81 | sorting events already in order leaves them as they are |
| EventSort.SortIdempotent | record-and-playback/rap/lib/recordandplayback/generators/video.rb:81 | sorting twice is sorting once |
| EventSort.SortedPermutationsShareHead | record-and-playback/rap/lib/recordandplayback/generators/video.rb:81 | two sorted permutations with distinct starts begin with the same event |
| EventSort.SortedPermutationUnique | record-and-playback/rap/lib/recordandplayback/generators/video.rb:81 | when no two events share a start, every sorted permutation is the same, so the unstable sort's choice of order cannot matter |
| StreamNames.ParseSuffix | record-and-playback/rap/lib/recordandplayback/generators/video.rb:85-103 | a suffix it accepts is the suffix of the slot it returns |
| StreamNames.SlotOf | record-and-playback/rap/lib/recordandplayback/generators/video.rb:85-103 | a name it accepts is the filler name of the slot it returns |
| StreamNames.SlotOfStreamName | record-and-playback/rap/lib/recordandplayback/generators/video.rb:85-103 | every slot's filler name reads back as that slot |
| StreamNames.StreamNameInjective | record-and-playback/rap/lib/recordandplayback/generators/video.rb:85-103 | different slots have different filler names under the same prefix |
| Decimal.NatToString | record-and-playback/rap/lib/recordandplayback/generators/video.rb:95 | `"#{i}"` for the loop index is a canonical numeral (digits, no leading zero), and starts with `0` only for index 0 |
| Decimal.ParsePrinted | record-and-playback/rap/lib/recordandplayback/generators/video.rb:95 | reading back the printed index gives the index |
| Decimal.PrintParsed | record-and-playback/rap/lib/recordandplayback/generators/video.rb:95 | printing the value of a canonical numeral gives the numeral back |
| Decimal.NatToStringInjective | record-and-playback/rap/lib/recordandplayback/generators/video.rb:95 | different indices print differently, so `blank-<i>.flv` names differ per pair |

## Left out

- `strip_audio_from_video`, `create_blank_deskshare_video`,
  `create_blank_video`, `create_blank_canvas`, `concatenate_videos` and
  `multiplex_audio_and_video` (video.rb:10-75) are not modelled. They build
  command lines for external ffmpeg, ImageMagick and mencoder processes and
  run them.
- `get_video_height`, `get_video_width`, `get_video_duration`,
  `get_video_bitrate` and `get_video_framerate` (video.rb:141-159) are not
  modelled. They read media files through a foreign library.
- `sort!` sorts the caller's array in place, and the caller sees the new
  order. The model returns values and does not model that aliasing.
  `ReplanningSortedEventsIsStable` states what a second call on the sorted
  array returns.
- Ruby's sort is not stable. The model sorts with one admissible order, an
  insertion sort that puts equal starts in input order. The results are
  the same for every admissible order when no two events share a start
  (`SortedPermutationUnique`, `InputOrderIrrelevant`). When starts tie, the
  order decides the result (`ExampleTieOrderMatters`), so the model does
  not predict which list Ruby returns for such input.
- An empty event list raises `NoMethodError` on `nil` in the source. The
  model returns `Failure(NoEvents)` instead of modelling the exception.
- Events are records of two integers. The model does not model hashes
  missing a key, or timestamps that are not integers.
- VideoPaddings.LeadingPaddingIff states when the leading name appears,
  not the record's bounds. Those follow from
  `VideoPaddings.PaddingNameReadsBack`, which gives each named padding as
  exactly its slot's record.
- VideoPaddings.InteriorPaddingIff states when a `blank-<i>.flv` name
  appears, not the record's bounds, for the same reason.
- VideoPaddings.TrailingPaddingIff states when the trailing name appears,
  not the record's bounds, for the same reason.

=== FILE: decimal.dfy ===
/**
 Decimal rendering of a non-negative integer, as Ruby's string interpolation
 `"#{i}"` produces it for the loop index of the planner, and its inverse.
 */
module Decimal {

  predicate IsDigit(c: char)
  {
    '0' <= c <= '9'
  }

  function DigitChar(d: nat): (c: char)
    requires d < 10
    ensures IsDigit(c)
  {
    ('0' as int + d) as char
  }

  function DigitValue(c: char): (d: nat)
    requires IsDigit(c)
    ensures d < 10
    ensures DigitChar(d) == c
  {
    c as int - '0' as int
  }

  /** Every character is a decimal digit (the empty string included). */
  predicate AllDigits(s: string)
  {
    forall k :: 0 <= k < |s| ==> IsDigit(s[k])
  }

  /** A numeral as Ruby prints one: at least one digit and no leading zero
      unless the numeral is `0` itself. */
  predicate IsCanonical(s: string)
  {
    |s| > 0 && AllDigits(s) && (s[0] == '0' ==> |s| == 1)
  }

  /** `"#{n}"` for a non-negative Ruby Integer. */
  function NatToString(n: nat): (s: string)
    ensures IsCanonical(s)
    ensures s[0] == '0' <==> n == 0
  {
    if n < 10 then [DigitChar(n)] else NatToString(n / 10) + [DigitChar(n % 10)]
  }

  /** The value of a string of digits, most significant first; `0` for the
      empty string. */
  function ParseDigits(s: string): (n: nat)
    requires AllDigits(s)
  {
    if |s| == 0 then 0 else ParseDigits(s[..|s| - 1]) * 10 + DigitValue(s[|s| - 1])
  }

  /** Reading back what `NatToString` prints gives the number printed. */
  lemma {:induction false} ParsePrinted(n: nat)
    ensures ParseDigits(NatToString(n)) == n
  {
    var s := NatToString(n);
    if n < 10 {
      assert s[..|s| - 1] == [];
    } else {
      assert s[..|s| - 1] == NatToString(n / 10);
      ParsePrinted(n / 10);
    }
  }

  /** A canonical numeral whose first digit is not `0` denotes a positive number. */
  lemma {:induction false} LeadingNonZeroIsPositive(s: string)
    requires |s| > 0 && AllDigits(s) && s[0] != '0'
    ensures ParseDigits(s) >= 1
  {
    if |s| > 1 {
      LeadingNonZeroIsPositive(s[..|s| - 1]);
    } else {
      assert s[..|s| - 1] == [];
    }
  }

  /** Printing the value of a canonical numeral gives the numeral back, so
      canonical numerals and natural numbers correspond one to one. */
  lemma {:induction false} PrintParsed(s: string)
    requires IsCanonical(s)
    ensures NatToString(ParseDigits(s)) == s
  {
    if |s| == 1 {
      assert s[..0] == [];
      assert s == [s[0]];
    } else {
      var init := s[..|s| - 1];
      assert IsCanonical(init);
      LeadingNonZeroIsPositive(init);
      PrintParsed(init);
      var d := DigitValue(s[|s| - 1]);
      var n := ParseDigits(init) * 10 + d;
      assert n / 10 == ParseDigits(init) && n % 10 == d;
      assert s == init + [s[|s| - 1]];
    }
  }

  /** Distinct indices print as distinct numerals. */
  lemma NatToStringInjective(m: nat, n: nat)
    requires NatToString(m) == NatToString(n)
    ensures m == n
  {
    ParsePrinted(m);
    ParsePrinted(n);
  }
}

=== FILE: event_sort.dfy ===
/**
 Ordering the events by start timestamp, as the planner's first step
 (`events.sort! {|a,b| a[:start_timestamp] <=> b[:start_timestamp]}`).
 Ruby's sort is not stable, so when two events share a start their order
 afterwards is unspecified; `SortByStart` is one admissible order.
 */
module EventSort {
  import opened Timeline

  predicate SortedByStart(s: seq<Event>)
  {
    forall j, k :: 0 <= j < k < |s| ==> s[j].start <= s[k].start
  }

  /** No two different events share a start timestamp. */
  predicate DistinctStarts(s: seq<Event>)
  {
    forall x, y :: x in s && y in s && x.start == y.start ==> x == y
  }

  /** Insert `e` in front of the first event of `s` that does not start
      earlier. */
  function Insert(e: Event, s: seq<Event>): (r: seq<Event>)
  {
    if |s| == 0 || e.start <= s[0].start then [e] + s
    else [s[0]] + Insert(e, s[1..])
  }

  lemma {:induction false} InsertLength(e: Event, s: seq<Event>)
    ensures |Insert(e, s)| == |s| + 1
  {
    if |s| > 0 && e.start > s[0].start {
      InsertLength(e, s[1..]);
    }
  }

  /** Inserting adds `e` and keeps every other event. */
  lemma {:induction false} InsertPermutes(e: Event, s: seq<Event>)
    ensures multiset(Insert(e, s)) == multiset(s) + multiset{e}
  {
    if |s| > 0 && e.start > s[0].start {
      InsertPermutes(e, s[1..]);
      assert s == [s[0]] + s[1..];
    }
  }

  /** Inserting into a sorted list keeps it sorted. */
  lemma {:induction false} InsertSorted(e: Event, s: seq<Event>)
    requires SortedByStart(s)
    ensures SortedByStart(Insert(e, s))
  {
    if |s| > 0 && e.start > s[0].start {
      var r := Insert(e, s[1..]);
      InsertSorted(e, s[1..]);
      InsertPermutes(e, s[1..]);
      forall k | 0 <= k < |r|
        ensures s[0].start <= r[k].start
      {
        assert r[k] in multiset(r);
        if r[k] != e {
          assert r[k] in s[1..];
        }
      }
    }
  }

  lemma MultisetOfCons(s: seq<Event>)
    requires |s| > 0
    ensures multiset(s) == multiset(s[1..]) + multiset{s[0]}
  {
    assert s == [s[0]] + s[1..];
  }

  /** Insertion sort by start timestamp. */
  function SortByStart(s: seq<Event>): (r: seq<Event>)
    ensures SortedByStart(r)
    ensures multiset(r) == multiset(s)
    ensures |r| == |s|
  {
    if |s| == 0 then []
    else
      var t := SortByStart(s[1..]);
      InsertSorted(s[0], t);
      InsertPermutes(s[0], t);
      InsertLength(s[0], t);
      MultisetOfCons(s);
      Insert(s[0], t)
  }

  /** Sorting keeps exactly the events it was given. */
  lemma SortKeepsEvents(events: seq<Event>)
    ensures forall e :: e in SortByStart(events) <==> e in events
  {
    forall e
      ensures e in SortByStart(events) <==> e in events
    {
      assert e in SortByStart(events) <==> e in multiset(SortByStart(events));
    }
  }

  lemma SortKeepsWellFormed(events: seq<Event>)
    requires AllWellFormed(events)
    ensures AllWellFormed(SortByStart(events))
  {
    var sorted := SortByStart(events);
    SortKeepsEvents(events);
    forall k | 0 <= k < |sorted|
      ensures WellFormed(sorted[k])
    {
      assert sorted[k] in events;
    }
  }

  /** Sorting events that are already in order leaves them as they are. */
  lemma {:induction false} SortSortedIsIdentity(s: seq<Event>)
    requires SortedByStart(s)
    ensures SortByStart(s) == s
  {
    if |s| > 0 {
      SortSortedIsIdentity(s[1..]);
      assert s == [s[0]] + s[1..];
    }
  }

  /** Sorting twice is sorting once. */
  lemma SortIdempotent(s: seq<Event>)
    ensures SortByStart(SortByStart(s)) == SortByStart(s)
  {
    SortSortedIsIdentity(SortByStart(s));
  }

  /** Two sorted permutations of the same events begin with the same event
      when no two events share a start. */
  lemma SortedPermutationsShareHead(a: seq<Event>, b: seq<Event>)
    requires |a| > 0 && |b| > 0
    requires SortedByStart(a) && SortedByStart(b)
    requires multiset(a) == multiset(b)
    requires DistinctStarts(a)
    ensures a[0] == b[0]
  {
    assert a[0] in multiset(b) && b[0] in multiset(a);
    var k :| 0 <= k < |b| && b[k] == a[0];
    var j :| 0 <= j < |a| && a[j] == b[0];
    assert a[0].start <= a[j].start;
    assert b[0].start <= b[k].start;
  }

  lemma TailsArePermutations(a: seq<Event>, b: seq<Event>)
    requires |a| > 0 && |b| > 0 && a[0] == b[0]
    requires multiset(a) == multiset(b)
    ensures multiset(a[1..]) == multiset(b[1..])
  {
    assert a == [a[0]] + a[1..] && b == [b[0]] + b[1..];
    assert multiset(a[1..]) == multiset(a) - multiset{a[0]};
    assert multiset(b[1..]) == multiset(b) - multiset{b[0]};
  }

  /** Dropping the first event keeps starts distinct. */
  lemma DistinctStartsTail(a: seq<Event>)
    requires |a| > 0 && DistinctStarts(a)
    ensures DistinctStarts(a[1..])
  {
    assert forall x :: x in a[1..] ==> x in a;
  }

  /** Permutations have the same length. */
  lemma PermutationSameLength(a: seq<Event>, b: seq<Event>)
    requires multiset(a) == multiset(b)
    ensures |a| == |b|
  {
    assert |a| == |multiset(a)| && |b| == |multiset(b)|;
  }

  lemma ConsEqual(a: seq<Event>, b: seq<Event>)
    requires |a| > 0 && |b| > 0 && a[0] == b[0] && a[1..] == b[1..]
    ensures a == b
  {
    assert a == [a[0]] + a[1..] && b == [b[0]] + b[1..];
  }

  /** When no two events share a start there is exactly one sorted order, so
      every sorted permutation, whichever sort produced it, is the same. */
  lemma {:induction false} SortedPermutationUnique(a: seq<Event>, b: seq<Event>)
    requires SortedByStart(a) && SortedByStart(b)
    requires multiset(a) == multiset(b)
    requires DistinctStarts(a)
    ensures a == b
  {
    PermutationSameLength(a, b);
    if |a| > 0 {
      SortedPermutationsShareHead(a, b);
      TailsArePermutations(a, b);
      DistinctStartsTail(a);
      SortedPermutationUnique(a[1..], b[1..]);
      ConsEqual(a, b);
    }
  }
  /** Two entries of a list that hold the same event make it occur twice. */
  lemma RepeatedEntryCountsTwice(s: seq<Event>, j: nat, k: nat)
    requires j < k < |s| && s[j] == s[k]
    ensures multiset(s)[s[j]] >= 2
  {
    assert s == s[..j] + [s[j]] + s[j + 1..k] + [s[k]] + s[k + 1..];
  }

  /** An event that occurs at least twice sits at two different positions. */
  lemma TwiceCountedAtTwoEntries(s: seq<Event>, e: Event)
    requires multiset(s)[e] >= 2
    ensures exists j, k :: 0 <= j < k < |s| && s[j] == e && s[k] == e
  {
    assert e in multiset(s);
    var j :| 0 <= j < |s| && s[j] == e;
    var rest := s[..j] + s[j + 1..];
    assert s == s[..j] + [s[j]] + s[j + 1..];
    assert multiset(rest)[e] >= 1;
    var i :| 0 <= i < |rest| && rest[i] == e;
    if i < j {
      assert s[i] == e;
    } else {
      assert s[i + 1] == e;
    }
  }

  /** Sorting well-formed events that share no timestamp keeps them so. */
  lemma SortKeepsDisjoint(events: seq<Event>)
    requires Disjoint(events) && AllWellFormed(events)
    ensures Disjoint(SortByStart(events))
  {
    var sorted := SortByStart(events);
    forall j, k | 0 <= j < |sorted| && 0 <= k < |sorted| && j != k
      ensures sorted[j].stop < sorted[k].start || sorted[k].stop < sorted[j].start
    {
      assert sorted[j] in multiset(events) && sorted[k] in multiset(events);
      if sorted[j] == sorted[k] {
        if j < k {
          RepeatedEntryCountsTwice(sorted, j, k);
        } else {
          RepeatedEntryCountsTwice(sorted, k, j);
        }
        TwiceCountedAtTwoEntries(events, sorted[j]);
      } else {
        var a :| 0 <= a < |events| && events[a] == sorted[j];
        var b :| 0 <= b < |events| && events[b] == sorted[k];
      }
    }
  }

  /** Well-formed events sorted by start that share no timestamp are in
      chronological order: each stops before any later one starts. */
  lemma SortedDisjointIsSeparated(s: seq<Event>)
    requires SortedByStart(s) && Disjoint(s) && AllWellFormed(s)
    ensures Separated(s)
  {
    forall j, k | 0 <= j < k < |s|
      ensures s[j].stop < s[k].start
    {
      assert WellFormed(s[k]);
    }
  }
}

=== FILE: gap_planner.dfy ===
/**
 The padding planner shared by `generate_video_paddings` and
 `generate_deskshare_paddings`. The two differ only in the filler names, so
 the planner is written once over a naming of slots, `name`; the
 `VideoPaddings` module instantiates it with the two prefixes. It works on
 events already in the order the sort left them.

 Two views are given. `PlanPaddings` (and the loop `PlanPaddingsLoop`) builds
 the list the way the source does: leading test, one test per neighbouring
 pair, trailing test. The reference view walks the `n + 1` slots in
 chronological order and keeps those whose gap length is positive
 (`PositiveSlots`); `PlanMatchesSlots` proves the two agree.
 */
module GapPlanner {
  import opened Timeline

  // ----- Slots -----

  /** The slots that exist for `n` events: one before the first event, one
      between each neighbouring pair, one after the last event. */
  predicate ValidSlot(s: Slot, n: nat)
  {
    match s
    case Leading => true
    case Between(i) => i + 1 < n
    case Trailing => true
  }

  /** Chronological position of a slot among the `n + 1` slots. */
  function Rank(s: Slot, n: nat): (k: nat)
  {
    match s
    case Leading => 0
    case Between(i) => i + 1
    case Trailing => n
  }

  /** The slot of rank `k` among the `n + 1` slots. */
  function SlotAt(n: nat, k: nat): (s: Slot)
    requires 0 < n && k <= n
    ensures ValidSlot(s, n) && Rank(s, n) == k
  {
    if k == 0 then Leading else if k == n then Trailing else Between(k - 1)
  }

  /** The `length_of_gap` the source computes for a slot. */
  function SlotLength(events: seq<Event>, first: int, last: int, s: Slot): (len: int)
    requires 0 < |events| && ValidSlot(s, |events|)
  {
    match s
    case Leading => events[0].start - first
    case Between(i) => events[i + 1].start - events[i].stop
    case Trailing => last - events[|events| - 1].stop
  }

  /** The padding record the source emits for a slot whose length is
      positive. The trailing record stops at `last - 1`. */
  function SlotPadding(events: seq<Event>, first: int, last: int, name: Slot -> string, s: Slot): (p: Padding)
    requires 0 < |events| && ValidSlot(s, |events|)
  {
    match s
    case Leading => Padding(first, events[0].start - 1, true, name(s))
    case Between(i) => Padding(events[i].stop + 1, events[i + 1].start - 1, true, name(s))
    case Trailing => Padding(events[|events| - 1].stop + 1, last - 1, true, name(s))
  }

  // ----- The planner as the source writes it -----

  function LeadingPadding(events: seq<Event>, first: int, name: Slot -> string): (r: seq<Padding>)
    requires 0 < |events|
  {
    var length := events[0].start - first;
    if length > 0 then [Padding(first, events[0].start - 1, true, name(Leading))] else []
  }

  /** What the `while i < events.length - 1` loop appends from index `i` on. */
  function InteriorPaddings(events: seq<Event>, i: nat, name: Slot -> string): (r: seq<Padding>)
    requires i < |events|
    decreases |events| - i
  {
    if i + 1 == |events| then []
    else
      var length := events[i + 1].start - events[i].stop;
      var here := if length > 0
        then [Padding(events[i].stop + 1, events[i + 1].start - 1, true, name(Between(i)))]
        else [];
      here + InteriorPaddings(events, i + 1, name)
  }

  function TrailingPadding(events: seq<Event>, last: int, name: Slot -> string): (r: seq<Padding>)
    requires 0 < |events|
  {
    var length := last - events[|events| - 1].stop;
    if length > 0 then [Padding(events[|events| - 1].stop + 1, last - 1, true, name(Trailing))] else []
  }

  /** The padding list for events in the given order. An empty event list is
      the error the source raises when it reads `events[0]`. */
  function PlanPaddings(events: seq<Event>, first: int, last: int, name: Slot -> string): (r: Result<seq<Padding>>)
    ensures r.Failure? <==> |events| == 0
  {
    if |events| == 0 then Failure(NoEvents)
    else Success(LeadingPadding(events, first, name)
                 + InteriorPaddings(events, 0, name)
                 + TrailingPadding(events, last, name))
  }

  /** The list of a successful plan. */
  function Planned(events: seq<Event>, first: int, last: int, name: Slot -> string): (r: seq<Padding>)
    requires 0 < |events|
  {
    PlanPaddings(events, first, last, name).value
  }

  /** One turn of the loop: the pair at `i` contributes at most one padding,
      ahead of everything later pairs contribute. */
  lemma InteriorStep(events: seq<Event>, i: nat, name: Slot -> string)
    requires i + 1 < |events|
    ensures InteriorPaddings(events, i, name)
         == (if events[i + 1].start - events[i].stop > 0
             then [Padding(events[i].stop + 1, events[i + 1].start - 1, true, name(Between(i)))]
             else [])
            + InteriorPaddings(events, i + 1, name)
  {
  }

  /** The source's `while i < events.length - 1` loop: append to `paddings`
      the padding of every neighbouring pair whose gap is positive. */
  method AppendInteriorPaddings(events: seq<Event>, name: Slot -> string, paddings0: seq<Padding>)
    returns (paddings: seq<Padding>)
    requires 0 < |events|
    ensures paddings == paddings0 + InteriorPaddings(events, 0, name)
  {
    paddings := paddings0;
    var i := 0;
    while i < |events| - 1
      invariant 0 <= i <= |events| - 1
      invariant paddings + InteriorPaddings(events, i, name) == paddings0 + InteriorPaddings(events, 0, name)
    {
      var prev := events[i];
      var next := events[i + 1];
      var length := next.start - prev.stop;
      var here: seq<Padding> := [];
      if length > 0 {
        here := [Padding(prev.stop + 1, next.start - 1, true, name(Between(i)))];
      }
      InteriorStep(events, i, name);
      assert paddings + InteriorPaddings(events, i, name)
          == (paddings + here) + InteriorPaddings(events, i + 1, name);
      paddings := paddings + here;
      i := i + 1;
    }
    assert InteriorPaddings(events, i, name) == [];
    assert paddings + [] == paddings;
  }

  /** The planner as the source runs it: append the leading padding, run the
      loop over neighbouring pairs, append the trailing padding. */
  method PlanPaddingsLoop(events: seq<Event>, first: int, last: int, name: Slot -> string)
    returns (r: Result<seq<Padding>>)
    ensures r == PlanPaddings(events, first, last, name)
  {
    if |events| == 0 {
      return Failure(NoEvents);
    }
    var paddings: seq<Padding> := [];
    var length := events[0].start - first;
    if length > 0 {
      paddings := paddings + [Padding(first, events[0].start - 1, true, name(Leading))];
    }
    assert paddings == LeadingPadding(events, first, name);
    paddings := AppendInteriorPaddings(events, name, paddings);
    ghost var body := paddings;
    length := last - events[|events| - 1].stop;
    if length > 0 {
      paddings := paddings + [Padding(events[|events| - 1].stop + 1, last - 1, true, name(Trailing))];
    }
    assert paddings == body + TrailingPadding(events, last, name);
    return Success(paddings);
  }

  // ----- The reference plan -----

  /** Walking the slots of rank `k` to `n` in chronological order, the ones
      whose gap length is positive. */
  function PositiveSlots(events: seq<Event>, first: int, last: int, k: nat): (r: seq<Slot>)
    requires 0 < |events| && k <= |events| + 1
    ensures forall j :: 0 <= j < |r| ==> ValidSlot(r[j], |events|)
    ensures |r| <= |events| + 1 - k
    decreases |events| + 1 - k
  {
    if k == |events| + 1 then []
    else
      var s := SlotAt(|events|, k);
      var rest := PositiveSlots(events, first, last, k + 1);
      if SlotLength(events, first, last, s) > 0 then [s] + rest else rest
  }

  /** The reference plan holds only slots of positive length, of rank `k`
      or more. */
  lemma {:induction false} PositiveSlotsSound(events: seq<Event>, first: int, last: int, k: nat)
    requires 0 < |events| && k <= |events| + 1
    ensures forall j :: 0 <= j < |PositiveSlots(events, first, last, k)| ==>
      && SlotLength(events, first, last, PositiveSlots(events, first, last, k)[j]) > 0
      && k <= Rank(PositiveSlots(events, first, last, k)[j], |events|)
    decreases |events| + 1 - k
  {
    if k <= |events| {
      PositiveSlotsSound(events, first, last, k + 1);
      var s := SlotAt(|events|, k);
      var rest := PositiveSlots(events, first, last, k + 1);
      var r := PositiveSlots(events, first, last, k);
      if SlotLength(events, first, last, s) > 0 {
        assert r == [s] + rest;
        forall j | 0 <= j < |r|
          ensures SlotLength(events, first, last, r[j]) > 0 && k <= Rank(r[j], |events|)
        {
          if j > 0 {
            assert r[j] == rest[j - 1];
          }
        }
      } else {
        assert r == rest;
      }
    }
  }

  /** The reference plan lists its slots in strictly increasing rank. */
  lemma {:induction false} PositiveSlotsOrdered(events: seq<Event>, first: int, last: int, k: nat)
    requires 0 < |events| && k <= |events| + 1
    ensures forall j, l :: 0 <= j < l < |PositiveSlots(events, first, last, k)| ==>
      Rank(PositiveSlots(events, first, last, k)[j], |events|) < Rank(PositiveSlots(events, first, last, k)[l], |events|)
    decreases |events| + 1 - k
  {
    if k <= |events| {
      PositiveSlotsOrdered(events, first, last, k + 1);
      PositiveSlotsSound(events, first, last, k + 1);
      var s := SlotAt(|events|, k);
      var rest := PositiveSlots(events, first, last, k + 1);
      var r := PositiveSlots(events, first, last, k);
      if SlotLength(events, first, last, s) > 0 {
        assert r == [s] + rest;
        forall j, l | 0 <= j < l < |r|
          ensures Rank(r[j], |events|) < Rank(r[l], |events|)
        {
          assert r[l] == rest[l - 1];
          if j > 0 {
            assert r[j] == rest[j - 1];
          }
        }
      } else {
        assert r == rest;
      }
    }
  }

  /** The reference plan holds every slot of rank `k` or more whose gap
      length is positive. */
  lemma {:induction false} PositiveSlotsComplete(events: seq<Event>, first: int, last: int, k: nat)
    requires 0 < |events| && k <= |events| + 1
    ensures forall m :: (k <= m <= |events| && SlotLength(events, first, last, SlotAt(|events|, m)) > 0)
                        ==> SlotAt(|events|, m) in PositiveSlots(events, first, last, k)
    decreases |events| + 1 - k
  {
    if k <= |events| {
      PositiveSlotsComplete(events, first, last, k + 1);
    }
  }

  /** The padding records of a list of slots, in the same order. */
  function SlotPaddings(events: seq<Event>, first: int, last: int, name: Slot -> string, slots: seq<Slot>): (r: seq<Padding>)
    requires 0 < |events|
    requires forall j :: 0 <= j < |slots| ==> ValidSlot(slots[j], |events|)
    ensures |r| == |slots|
    ensures forall j :: 0 <= j < |r| ==> r[j] == SlotPadding(events, first, last, name, slots[j])
  {
    if |slots| == 0 then []
    else [SlotPadding(events, first, last, name, slots[0])] + SlotPaddings(events, first, last, name, slots[1..])
  }

  /** A slot list with one slot in front of `rest`. */
  lemma SlotPaddingsCons(events: seq<Event>, first: int, last: int, name: Slot -> string, s: Slot, rest: seq<Slot>)
    requires 0 < |events| && ValidSlot(s, |events|)
    requires forall j :: 0 <= j < |rest| ==> ValidSlot(rest[j], |events|)
    ensures SlotPaddings(events, first, last, name, [s] + rest)
         == [SlotPadding(events, first, last, name, s)] + SlotPaddings(events, first, last, name, rest)
  {
    assert ([s] + rest)[1..] == rest;
  }

  /** One step of the reference walk: the slot of rank `k` contributes its
      padding, when its length is positive, ahead of the later slots'. */
  lemma PositiveSlotsStep(events: seq<Event>, first: int, last: int, name: Slot -> string, k: nat)
    requires 0 < |events| && k <= |events|
    ensures SlotPaddings(events, first, last, name, PositiveSlots(events, first, last, k))
         == (if SlotLength(events, first, last, SlotAt(|events|, k)) > 0
             then [SlotPadding(events, first, last, name, SlotAt(|events|, k))]
             else [])
            + SlotPaddings(events, first, last, name, PositiveSlots(events, first, last, k + 1))
  {
    var s := SlotAt(|events|, k);
    var rest := PositiveSlots(events, first, last, k + 1);
    if SlotLength(events, first, last, s) > 0 {
      SlotPaddingsCons(events, first, last, name, s, rest);
    }
  }

  /** The pair at index `i` is the slot of rank `i + 1`: the loop's test
      and record for the pair are the slot's. */
  lemma InteriorTurnMatchesSlot(events: seq<Event>, first: int, last: int, name: Slot -> string, i: nat)
    requires i + 1 < |events|
    ensures (if SlotLength(events, first, last, SlotAt(|events|, i + 1)) > 0
             then [SlotPadding(events, first, last, name, SlotAt(|events|, i + 1))]
             else [])
         == (if events[i + 1].start - events[i].stop > 0
             then [Padding(events[i].stop + 1, events[i + 1].start - 1, true, name(Between(i)))]
             else [])
  {
    assert SlotAt(|events|, i + 1) == Between(i);
  }

  /** From index `i` on, the loop and the trailing test emit the paddings of
      the positive slots of rank `i + 1` onward. */
  lemma {:induction false} InteriorMatchesSlots(events: seq<Event>, first: int, last: int, name: Slot -> string, i: nat)
    requires i < |events|
    ensures InteriorPaddings(events, i, name) + TrailingPadding(events, last, name)
         == SlotPaddings(events, first, last, name, PositiveSlots(events, first, last, i + 1))
    decreases |events| - i
  {
    if i + 1 == |events| {
      PositiveSlotsStep(events, first, last, name, i + 1);
      assert PositiveSlots(events, first, last, i + 2) == [];
    } else {
      var here := if events[i + 1].start - events[i].stop > 0
        then [Padding(events[i].stop + 1, events[i + 1].start - 1, true, name(Between(i)))]
        else [];
      var rest := InteriorPaddings(events, i + 1, name);
      var trail := TrailingPadding(events, last, name);
      calc {
        InteriorPaddings(events, i, name) + trail;
        == { InteriorStep(events, i, name); }
        (here + rest) + trail;
        == { assert (here + rest) + trail == here + (rest + trail); }
        here + (rest + trail);
        == { InteriorMatchesSlots(events, first, last, name, i + 1); }
        here + SlotPaddings(events, first, last, name, PositiveSlots(events, first, last, i + 2));
        == { InteriorTurnMatchesSlot(events, first, last, name, i);
             PositiveSlotsStep(events, first, last, name, i + 1); }
        SlotPaddings(events, first, last, name, PositiveSlots(events, first, last, i + 1));
      }
    }
  }

  /** The planner's list is the reference plan: the paddings of exactly the
      slots of positive gap length, each once, in chronological slot order
      (leading, interior by ascending index, trailing). */
  lemma PlanMatchesSlots(events: seq<Event>, first: int, last: int, name: Slot -> string)
    requires 0 < |events|
    ensures PlanPaddings(events, first, last, name)
         == Success(SlotPaddings(events, first, last, name, PositiveSlots(events, first, last, 0)))
  {
    InteriorMatchesSlots(events, first, last, name, 0);
    var s := SlotAt(|events|, 0);
    var rest := PositiveSlots(events, first, last, 1);
    var lead := LeadingPadding(events, first, name);
    var tail := InteriorPaddings(events, 0, name) + TrailingPadding(events, last, name);
    assert Planned(events, first, last, name) == lead + tail;
    if SlotLength(events, first, last, s) > 0 {
      assert PositiveSlots(events, first, last, 0) == [s] + rest;
      SlotPaddingsCons(events, first, last, name, s, rest);
    } else {
      assert PositiveSlots(events, first, last, 0) == rest;
      assert lead == [];
      assert lead + tail == tail;
    }
  }

  /** At most one padding per slot, so at most `|events| + 1`, and every one
      is marked as a gap. */
  lemma PlanShape(events: seq<Event>, first: int, last: int, name: Slot -> string)
    requires 0 < |events|
    ensures |Planned(events, first, last, name)| <= |events| + 1
    ensures forall k :: 0 <= k < |Planned(events, first, last, name)| ==> Planned(events, first, last, name)[k].gap
  {
    PlanMatchesSlots(events, first, last, name);
  }

  /** A naming that gives different slots different names. */
  ghost predicate Injective(name: Slot -> string)
  {
    forall s, t :: name(s) == name(t) ==> s == t
  }

  /** A slot of positive gap length has its padding in the list. */
  lemma PositiveSlotListed(events: seq<Event>, first: int, last: int, name: Slot -> string, s: Slot)
    requires 0 < |events| && ValidSlot(s, |events|)
    requires SlotLength(events, first, last, s) > 0
    ensures SlotPadding(events, first, last, name, s) in Planned(events, first, last, name)
  {
    var slots := PositiveSlots(events, first, last, 0);
    PlanMatchesSlots(events, first, last, name);
    PositiveSlotsComplete(events, first, last, 0);
    assert SlotAt(|events|, Rank(s, |events|)) == s;
    var k :| 0 <= k < |slots| && slots[k] == s;
    assert Planned(events, first, last, name)[k] == SlotPadding(events, first, last, name, s);
  }

  /** With distinct slot names, a padding named after a slot is that slot's:
      the slot exists for these events, its gap length is positive, and the
      padding is the one the slot calls for. */
  lemma NamedSlotPositive(events: seq<Event>, first: int, last: int, name: Slot -> string, s: Slot, k: nat)
    requires 0 < |events|
    requires Injective(name)
    requires k < |Planned(events, first, last, name)|
    requires Planned(events, first, last, name)[k].stream == name(s)
    ensures ValidSlot(s, |events|)
    ensures Planned(events, first, last, name)[k] == SlotPadding(events, first, last, name, s)
    ensures SlotLength(events, first, last, s) > 0
  {
    var slots := PositiveSlots(events, first, last, 0);
    PlanMatchesSlots(events, first, last, name);
    PositiveSlotsSound(events, first, last, 0);
    assert Planned(events, first, last, name)[k] == SlotPadding(events, first, last, name, slots[k]);
    assert name(slots[k]) == name(s);
  }

  /** A slot gets a padding exactly when its gap length is positive; and
      when slot names are distinct, its name appears in the list exactly
      then. */
  lemma SlotEmittedIff(events: seq<Event>, first: int, last: int, name: Slot -> string, s: Slot)
    requires 0 < |events| && ValidSlot(s, |events|)
    requires Injective(name)
    ensures SlotLength(events, first, last, s) > 0
        <==> SlotPadding(events, first, last, name, s) in Planned(events, first, last, name)
    ensures SlotLength(events, first, last, s) > 0
        <==> exists k :: 0 <= k < |Planned(events, first, last, name)| && Planned(events, first, last, name)[k].stream == name(s)
  {
    var out := Planned(events, first, last, name);
    var p := SlotPadding(events, first, last, name, s);
    if SlotLength(events, first, last, s) > 0 {
      PositiveSlotListed(events, first, last, name, s);
      var k :| 0 <= k < |out| && out[k] == p;
      assert out[k].stream == name(s);
    }
    if exists k :: 0 <= k < |out| && out[k].stream == name(s) {
      var k :| 0 <= k < |out| && out[k].stream == name(s);
      NamedSlotPositive(events, first, last, name, s, k);
    }
    if p in out {
      var k :| 0 <= k < |out| && out[k] == p;
      NamedSlotPositive(events, first, last, name, s, k);
    }
  }

  // ----- The naming only renames -----

  /** Each padding with `prefix` put in front of its filler name. */
  function Prefixed(prefix: string, ps: seq<Padding>): (r: seq<Padding>)
    ensures |r| == |ps|
    ensures forall k :: 0 <= k < |ps| ==> r[k] == ps[k].(stream := prefix + ps[k].stream)
  {
    if |ps| == 0 then [] else [ps[0].(stream := prefix + ps[0].stream)] + Prefixed(prefix, ps[1..])
  }

  lemma PrefixedConcat(prefix: string, a: seq<Padding>, b: seq<Padding>)
    ensures Prefixed(prefix, a + b) == Prefixed(prefix, a) + Prefixed(prefix, b)
  {
  }

  lemma {:induction false} InteriorPrefixed(events: seq<Event>, i: nat, prefix: string, name: Slot -> string, name': Slot -> string)
    requires i < |events|
    requires forall s :: name'(s) == prefix + name(s)
    ensures InteriorPaddings(events, i, name') == Prefixed(prefix, InteriorPaddings(events, i, name))
    decreases |events| - i
  {
    if i + 1 < |events| {
      InteriorPrefixed(events, i + 1, prefix, name, name');
      InteriorStep(events, i, name);
      InteriorStep(events, i, name');
      var rest := InteriorPaddings(events, i + 1, name);
      if events[i + 1].start - events[i].stop > 0 {
        var p := Padding(events[i].stop + 1, events[i + 1].start - 1, true, name(Between(i)));
        PrefixedConcat(prefix, [p], rest);
      }
    }
  }

  /** Two namings that differ by a prefix give the same list up to that
      prefix on every filler name: same records, same order, same bounds. */
  lemma PlanPrefixed(events: seq<Event>, first: int, last: int, prefix: string, name: Slot -> string, name': Slot -> string)
    requires forall s :: name'(s) == prefix + name(s)
    ensures PlanPaddings(events, first, last, name').Failure? <==> PlanPaddings(events, first, last, name).Failure?
    ensures PlanPaddings(events, first, last, name').Success? ==>
      PlanPaddings(events, first, last, name').value == Prefixed(prefix, PlanPaddings(events, first, last, name).value)
  {
    if 0 < |events| {
      InteriorPrefixed(events, 0, prefix, name, name');
      var lead := LeadingPadding(events, first, name);
      var mid := InteriorPaddings(events, 0, name);
      var trail := TrailingPadding(events, last, name);
      PrefixedConcat(prefix, lead, mid);
      PrefixedConcat(prefix, lead + mid, trail);
      assert LeadingPadding(events, first, name') == Prefixed(prefix, lead);
      assert TrailingPadding(events, last, name') == Prefixed(prefix, trail);
    }
  }
}

=== FILE: planner_properties.dfy ===
/**
 What the planner's list means for the timeline. Together with the events,
 the paddings cover every timestamp from `first` up to `last - 1`. For
 well-formed events (`start <= stop`) sorted by start, the paddings come in
 strictly increasing order. When well-formed events all stop before `last`,
 nothing covers `last` itself. When well-formed events in time order share
 no timestamp, no padding overlaps an event. Touching neighbours still get a padding, one that stops a tick
 before it starts.
 */
module PlannerProperties {
  import opened Timeline
  import opened EventSort
  import opened GapPlanner

  /** For well-formed events sorted by start, two emitted slots in
      chronological order give paddings in that order: the later one starts
      after the earlier one both starts and stops. */
  lemma SlotPaddingsInOrder(events: seq<Event>, first: int, last: int, name: Slot -> string, s: Slot, t: Slot)
    requires 0 < |events| && SortedByStart(events) && AllWellFormed(events)
    requires ValidSlot(s, |events|) && ValidSlot(t, |events|)
    requires SlotLength(events, first, last, s) > 0 && SlotLength(events, first, last, t) > 0
    requires Rank(s, |events|) < Rank(t, |events|)
    ensures SlotPadding(events, first, last, name, s).start < SlotPadding(events, first, last, name, t).start
    ensures SlotPadding(events, first, last, name, s).stop < SlotPadding(events, first, last, name, t).start
  {
    var n := |events|;
    if t.Between? {
      assert events[t.index].start <= events[t.index].stop;
    } else {
      assert events[n - 1].start <= events[n - 1].stop;
    }
    if s.Between? {
      assert events[s.index].start <= events[s.index].stop;
    }
  }

  /** For well-formed events sorted by start, each padding starts after
      every earlier padding has both started and stopped. */
  lemma PaddingsStrictlyOrdered(events: seq<Event>, first: int, last: int, name: Slot -> string)
    requires 0 < |events| && SortedByStart(events) && AllWellFormed(events)
    ensures forall j, k :: 0 <= j < k < |Planned(events, first, last, name)| ==>
      && Planned(events, first, last, name)[j].start < Planned(events, first, last, name)[k].start
      && Planned(events, first, last, name)[j].stop < Planned(events, first, last, name)[k].start
  {
    var out := Planned(events, first, last, name);
    var slots := PositiveSlots(events, first, last, 0);
    PlanMatchesSlots(events, first, last, name);
    PositiveSlotsSound(events, first, last, 0);
    PositiveSlotsOrdered(events, first, last, 0);
    forall j, k | 0 <= j < k < |out|
      ensures out[j].start < out[k].start && out[j].stop < out[k].start
    {
      SlotPaddingsInOrder(events, first, last, name, slots[j], slots[k]);
    }
  }

  /** Timestamp `t` lies in one of the events or in one of the paddings. */
  ghost predicate Covered(events: seq<Event>, out: seq<Padding>, t: int)
  {
    || (exists e :: e in events && e.start <= t <= e.stop)
    || (exists p :: p in out && p.start <= t <= p.stop)
  }

  /** A timestamp at or after the start of event `i` and before `last` is
      covered: by that event, by the padding after it, or further on. */
  lemma {:induction false} CoveredFrom(events: seq<Event>, first: int, last: int, name: Slot -> string, t: int, i: nat)
    requires i < |events|
    requires events[i].start <= t < last
    ensures Covered(events, Planned(events, first, last, name), t)
    decreases |events| - i
  {
    if t <= events[i].stop {
      assert events[i] in events;
    } else if i + 1 == |events| {
      PositiveSlotListed(events, first, last, name, Trailing);
    } else if events[i + 1].start <= t {
      CoveredFrom(events, first, last, name, t, i + 1);
    } else {
      PositiveSlotListed(events, first, last, name, Between(i));
    }
  }

  /** Events and paddings together cover every timestamp from `first` up to
      but not including `last`. */
  lemma CoversUpToLast(events: seq<Event>, first: int, last: int, name: Slot -> string, t: int)
    requires 0 < |events|
    requires first <= t < last
    ensures Covered(events, Planned(events, first, last, name), t)
  {
    if t < events[0].start {
      PositiveSlotListed(events, first, last, name, Leading);
    } else {
      CoveredFrom(events, first, last, name, t, 0);
    }
  }

  /** When the events are well-formed and every one stops before `last`,
      the timestamp `last` itself is covered neither by an event nor by a padding: the trailing padding
      stops at `last - 1`. */
  lemma LastTimestampUncovered(events: seq<Event>, first: int, last: int, name: Slot -> string)
    requires 0 < |events| && AllWellFormed(events)
    requires forall k :: 0 <= k < |events| ==> events[k].stop < last
    ensures !Covered(events, Planned(events, first, last, name), last)
  {
    var out := Planned(events, first, last, name);
    var slots := PositiveSlots(events, first, last, 0);
    PlanMatchesSlots(events, first, last, name);
    forall p | p in out
      ensures p.stop < last
    {
      var k :| 0 <= k < |out| && out[k] == p;
      match slots[k]
      case Leading =>
      case Between(i) => assert events[i + 1].start <= events[i + 1].stop;
      case Trailing =>
    }
  }

  /** For well-formed events in time order that share no timestamp, the
      padding of a slot of positive length lies wholly before or wholly after
      each event. */
  lemma SlotPaddingAvoidsEvent(events: seq<Event>, first: int, last: int, name: Slot -> string, s: Slot, j: nat)
    requires j < |events| && Separated(events) && AllWellFormed(events)
    requires ValidSlot(s, |events|) && SlotLength(events, first, last, s) > 0
    ensures SlotPadding(events, first, last, name, s).stop < events[j].start
         || events[j].stop < SlotPadding(events, first, last, name, s).start
  {
    var n := |events|;
    match s
    case Leading =>
      if j > 0 {
        assert events[0].stop < events[j].start;
      }
    case Between(i) =>
      if j < i {
        assert events[j].stop < events[i].start <= events[i].stop;
      } else if i + 1 < j {
        assert events[i + 1].stop < events[j].start;
      }
    case Trailing =>
      if j < n - 1 {
        assert events[j].stop < events[n - 1].start <= events[n - 1].stop;
      }
  }

  /** For well-formed events in time order that share no timestamp, each
      padding lies wholly before or wholly after each event. */
  lemma PaddingsAvoidEvents(events: seq<Event>, first: int, last: int, name: Slot -> string)
    requires 0 < |events| && Separated(events) && AllWellFormed(events)
    ensures forall p, e :: p in Planned(events, first, last, name) && e in events ==>
      p.stop < e.start || e.stop < p.start
  {
    var out := Planned(events, first, last, name);
    var slots := PositiveSlots(events, first, last, 0);
    PlanMatchesSlots(events, first, last, name);
    PositiveSlotsSound(events, first, last, 0);
    forall p, e | p in out && e in events
      ensures p.stop < e.start || e.stop < p.start
    {
      var k :| 0 <= k < |out| && out[k] == p;
      var j :| 0 <= j < |events| && events[j] == e;
      SlotPaddingAvoidsEvent(events, first, last, name, slots[k], j);
    }
  }

  /** When every event is well-formed and lies within `[first, last]`, the
      padding of a slot of positive length lies within `[first, last - 1]`. */
  lemma SlotPaddingWithin(events: seq<Event>, first: int, last: int, name: Slot -> string, s: Slot)
    requires 0 < |events| && AllWellFormed(events)
    requires forall k :: 0 <= k < |events| ==> first <= events[k].start && events[k].stop <= last
    requires ValidSlot(s, |events|) && SlotLength(events, first, last, s) > 0
    ensures first <= SlotPadding(events, first, last, name, s).start
    ensures SlotPadding(events, first, last, name, s).stop <= last - 1
  {
    match s
    case Leading => assert WellFormed(events[0]);
    case Between(i) =>
      assert WellFormed(events[i]);
      assert WellFormed(events[i + 1]);
    case Trailing => assert WellFormed(events[|events| - 1]);
  }

  /** When every event is well-formed and lies within `[first, last]`, every
      padding lies within `[first, last - 1]`: the paddings fill the timeline
      and nothing beyond. */
  lemma PaddingsWithinTimeline(events: seq<Event>, first: int, last: int, name: Slot -> string)
    requires 0 < |events| && AllWellFormed(events)
    requires forall k :: 0 <= k < |events| ==> first <= events[k].start && events[k].stop <= last
    ensures forall p :: p in Planned(events, first, last, name) ==> first <= p.start && p.stop <= last - 1
  {
    var out := Planned(events, first, last, name);
    var slots := PositiveSlots(events, first, last, 0);
    PlanMatchesSlots(events, first, last, name);
    PositiveSlotsSound(events, first, last, 0);
    forall p | p in out
      ensures first <= p.start && p.stop <= last - 1
    {
      var k :| 0 <= k < |out| && out[k] == p;
      SlotPaddingWithin(events, first, last, name, slots[k]);
    }
  }

  /** Neighbours that touch (the next starts one tick after the previous
      stops) still get a padding between them, one that stops a tick before
      it starts. */
  lemma TouchingNeighboursStillPadded(events: seq<Event>, first: int, last: int, name: Slot -> string, i: nat)
    requires i + 1 < |events|
    requires events[i + 1].start == events[i].stop + 1
    ensures Padding(events[i].stop + 1, events[i].stop, true, name(Between(i))) in Planned(events, first, last, name)
  {
    PositiveSlotListed(events, first, last, name, Between(i));
  }

  /** A last event that stops one tick before `last` still gets a trailing
      padding, from `last` to `last - 1`. */
  lemma TouchingEndStillPadded(events: seq<Event>, first: int, last: int, name: Slot -> string)
    requires 0 < |events|
    requires last == events[|events| - 1].stop + 1
    ensures Padding(last, last - 1, true, name(Trailing)) in Planned(events, first, last, name)
  {
    PositiveSlotListed(events, first, last, name, Trailing);
  }

  /** Neighbours that overlap or share a timestamp get no padding between
      them, when slot names are distinct. */
  lemma OverlapNotPadded(events: seq<Event>, first: int, last: int, name: Slot -> string, i: nat)
    requires i + 1 < |events| && Injective(name)
    requires events[i + 1].start <= events[i].stop
    ensures forall p :: p in Planned(events, first, last, name) ==> p.stream != name(Between(i))
  {
    var out := Planned(events, first, last, name);
    forall p | p in out
      ensures p.stream != name(Between(i))
    {
      var k :| 0 <= k < |out| && out[k] == p;
      if p.stream == name(Between(i)) {
        NamedSlotPositive(events, first, last, name, Between(i), k);
      }
    }
  }
}

=== FILE: stream_names.dfy ===
/**
 The file names of the blank filler videos. The video planner names them
 `blank-beginning.flv`, `blank-<i>.flv` and `blank-end.flv`; the deskshare
 planner puts `ds-` in front of each. `SlotOf` reads a name back to its slot.
 */
module StreamNames {
  import opened Timeline
  import opened Decimal

  /** The part of a filler name that follows the prefix. */
  function SlotSuffix(s: Slot): (suffix: string)
  {
    match s
    case Leading => "blank-beginning.flv"
    case Between(i) => "blank-" + NatToString(i) + ".flv"
    case Trailing => "blank-end.flv"
  }

  function StreamName(prefix: string, s: Slot): (name: string)
  {
    prefix + SlotSuffix(s)
  }

  /** The naming of slots a planner with the given prefix uses. */
  function Namer(prefix: string): (name: Slot -> string)
  {
    s => StreamName(prefix, s)
  }

  /** The slot whose suffix is `rest`, if `rest` is one. */
  function ParseSuffix(rest: string): (r: Option<Slot>)
    ensures r.Some? ==> SlotSuffix(r.value) == rest
  {
    if rest == "blank-beginning.flv" then Some(Leading)
    else if rest == "blank-end.flv" then Some(Trailing)
    else if |rest| > 10 && rest[..6] == "blank-" && rest[|rest| - 4..] == ".flv"
            && IsCanonical(rest[6..|rest| - 4]) then
      var digits := rest[6..|rest| - 4];
      PrintParsed(digits);
      assert rest == rest[..6] + digits + rest[|rest| - 4..];
      Some(Between(ParseDigits(digits)))
    else None
  }

  /** The three shapes of filler name, spelled out. */
  lemma StreamNamesSpelled(prefix: string, i: nat)
    ensures StreamName(prefix, Leading) == prefix + "blank-beginning.flv"
    ensures StreamName(prefix, Between(i)) == prefix + "blank-" + NatToString(i) + ".flv"
    ensures StreamName(prefix, Trailing) == prefix + "blank-end.flv"
  {
    assert prefix + ("blank-" + NatToString(i) + ".flv") == prefix + "blank-" + NatToString(i) + ".flv";
  }

  /** The slot a filler name with the given prefix stands for; `None` for any
      other string. Only names `StreamName` produces are accepted. */
  function SlotOf(prefix: string, name: string): (r: Option<Slot>)
    ensures r.Some? ==> StreamName(prefix, r.value) == name
  {
    if |prefix| <= |name| && name[..|prefix|] == prefix then
      assert name == prefix + name[|prefix|..];
      ParseSuffix(name[|prefix|..])
    else None
  }

  /** Every slot's name reads back as that slot, so different slots never
      share a filler name. */
  lemma SlotOfStreamName(prefix: string, s: Slot)
    ensures SlotOf(prefix, StreamName(prefix, s)) == Some(s)
  {
    var name := StreamName(prefix, s);
    var rest := SlotSuffix(s);
    assert name[..|prefix|] == prefix;
    assert name[|prefix|..] == rest;
    if s.Between? {
      var digits := NatToString(s.index);
      assert rest[6] == digits[0];
      assert "blank-beginning.flv"[6] == 'b' && "blank-end.flv"[6] == 'e';
      assert rest[..6] == "blank-";
      assert rest[|rest| - 4..] == ".flv";
      assert rest[6..|rest| - 4] == digits;
      ParsePrinted(s.index);
    }
  }

  lemma StreamNameInjective(prefix: string, s: Slot, t: Slot)
    requires StreamName(prefix, s) == StreamName(prefix, t)
    ensures s == t
  {
    SlotOfStreamName(prefix, s);
    SlotOfStreamName(prefix, t);
  }
}

=== FILE: timeline.dfy ===
/**
 The values the padding planner works on: recorded segments (events), the
 padding records it emits, the places a padding can go, and the outcome of a
 planning call.
 */
module Timeline {

  /** One recorded segment: a hash with an integer `:start_timestamp` and an
      integer `:stop_timestamp`, both inclusive. */
  datatype Event = Event(start: int, stop: int)

  /** One padding record: `{:start_timestamp, :stop_timestamp, :gap, :stream}`.
      `stream` is the file name of the blank filler video, such as
      `blank-beginning.flv` or `ds-blank-3.flv`. */
  datatype Padding = Padding(start: int, stop: int, gap: bool, stream: string)

  /** The places a padding can be emitted for a sorted list of `n` events:
      before the first event, after event `index` (for `index + 1 < n`),
      and after the last event. */
  datatype Slot = Leading | Between(index: nat) | Trailing

  /** Why planning failed. With no events the source dereferences `events[0]`,
      which is `nil` in Ruby, and raises. */
  datatype PlanError = NoEvents

  datatype Option<T> = None | Some(value: T)

  datatype Result<T> = Success(value: T) | Failure(error: PlanError)

  /** An event whose stop does not precede its start. */
  predicate WellFormed(e: Event)
  {
    e.start <= e.stop
  }

  predicate AllWellFormed(events: seq<Event>)
  {
    forall k :: 0 <= k < |events| ==> WellFormed(events[k])
  }

  /** Events in chronological order that share no timestamp: every event stops
      before any later one starts. */
  predicate Separated(events: seq<Event>)
  {
    forall j, k :: 0 <= j < k < |events| ==> events[j].stop < events[k].start
  }

  /** Events, in whatever order, no two of which share a timestamp: of any
      two entries, one stops before the other starts. */
  predicate Disjoint(events: seq<Event>)
  {
    forall j, k :: 0 <= j < |events| && 0 <= k < |events| && j != k ==>
      events[j].stop < events[k].start || events[k].stop < events[j].start
  }
}

=== FILE: video_paddings.dfy ===
/**
 `generate_video_paddings` and `generate_deskshare_paddings`: sort the
 recorded segments by start timestamp, then plan the blank filler videos
 that fill the gaps before, between and after them. The two differ only in
 the filler names, which the deskshare planner prefixes with `ds-`.
 */
module VideoPaddings {
  import opened Timeline
  import opened Decimal
  import opened StreamNames
  import opened EventSort
  import opened GapPlanner
  import opened PlannerProperties

  const VideoPrefix: string := ""
  const DesksharePrefix: string := "ds-"

  /** Both source functions: sort by start, then plan with the filler names
      of the given prefix. Fails exactly on an empty event list; otherwise at
      most one padding per slot, each marked as a gap. */
  function PaddingsFor(events: seq<Event>, first: int, last: int, prefix: string): (r: Result<seq<Padding>>)
    ensures r.Failure? <==> |events| == 0
    ensures r.Success? ==> |r.value| <= |events| + 1
    ensures r.Success? ==> forall k :: 0 <= k < |r.value| ==> r.value[k].gap
  {
    if |events| == 0 then Failure(NoEvents)
    else
      PlanShape(SortByStart(events), first, last, Namer(prefix));
      PlanPaddings(SortByStart(events), first, last, Namer(prefix))
  }

  /** `generate_video_paddings(events, first_timestamp, last_timestamp)`. */
  function GenerateVideoPaddings(events: seq<Event>, first: int, last: int): (r: Result<seq<Padding>>)
    ensures r.Failure? <==> |events| == 0
    ensures r.Success? ==> |r.value| <= |events| + 1
    ensures r.Success? ==> forall k :: 0 <= k < |r.value| ==> r.value[k].gap
  {
    PaddingsFor(events, first, last, VideoPrefix)
  }

  /** `generate_deskshare_paddings(events, first_timestamp, last_timestamp)`. */
  function GenerateDesksharePaddings(events: seq<Event>, first: int, last: int): (r: Result<seq<Padding>>)
    ensures r.Failure? <==> |events| == 0
    ensures r.Success? ==> |r.value| <= |events| + 1
    ensures r.Success? ==> forall k :: 0 <= k < |r.value| ==> r.value[k].gap
  {
    PaddingsFor(events, first, last, DesksharePrefix)
  }

  /** The list of a call that succeeds. */
  function Paddings(events: seq<Event>, first: int, last: int, prefix: string): (r: seq<Padding>)
    requires 0 < |events|
  {
    PaddingsFor(events, first, last, prefix).value
  }

  /** A successful call's list is the planner's list on the sorted events. */
  lemma PaddingsArePlanned(events: seq<Event>, first: int, last: int, prefix: string)
    requires 0 < |events|
    ensures Paddings(events, first, last, prefix) == Planned(SortByStart(events), first, last, Namer(prefix))
  {
  }

  /** A slot of the sorted events has its padding in the list exactly when
      its gap is positive, and its name appears exactly then. */
  lemma SlotEmitted(events: seq<Event>, first: int, last: int, prefix: string, s: Slot)
    requires 0 < |events| && ValidSlot(s, |events|)
    ensures SlotLength(SortByStart(events), first, last, s) > 0
        <==> SlotPadding(SortByStart(events), first, last, Namer(prefix), s) in Paddings(events, first, last, prefix)
    ensures SlotLength(SortByStart(events), first, last, s) > 0
        <==> exists k :: 0 <= k < |Paddings(events, first, last, prefix)|
                         && Paddings(events, first, last, prefix)[k].stream == StreamName(prefix, s)
  {
    NamerInjective(prefix);
    PaddingsArePlanned(events, first, last, prefix);
    SlotEmittedIff(SortByStart(events), first, last, Namer(prefix), s);
  }

  // ----- Filler names -----

  /** Different slots get different filler names, whatever the prefix. */
  lemma NamerInjective(prefix: string)
    ensures Injective(Namer(prefix))
  {
    forall s, t | Namer(prefix)(s) == Namer(prefix)(t)
      ensures s == t
    {
      StreamNameInjective(prefix, s, t);
    }
  }

  /** Each deskshare filler name is the video filler name with `ds-` in front. */
  lemma DeskshareNamesPrefixVideoNames()
    ensures forall s :: Namer(DesksharePrefix)(s) == DesksharePrefix + Namer(VideoPrefix)(s)
  {
    forall s
      ensures Namer(DesksharePrefix)(s) == DesksharePrefix + Namer(VideoPrefix)(s)
    {
      assert VideoPrefix + SlotSuffix(s) == SlotSuffix(s);
    }
  }

  /** The deskshare planner returns the video planner's list with `ds-` put
      in front of every filler name, and fails exactly when it fails. */
  lemma DeskshareMatchesVideo(events: seq<Event>, first: int, last: int)
    ensures GenerateDesksharePaddings(events, first, last).Failure?
        <==> GenerateVideoPaddings(events, first, last).Failure?
    ensures GenerateDesksharePaddings(events, first, last).Success? ==>
      && |GenerateDesksharePaddings(events, first, last).value| == |GenerateVideoPaddings(events, first, last).value|
      && forall k :: 0 <= k < |GenerateVideoPaddings(events, first, last).value| ==>
           GenerateDesksharePaddings(events, first, last).value[k]
           == GenerateVideoPaddings(events, first, last).value[k].(stream := DesksharePrefix + GenerateVideoPaddings(events, first, last).value[k].stream)
  {
    DeskshareNamesPrefixVideoNames();
    PlanPrefixed(SortByStart(events), first, last, DesksharePrefix, Namer(VideoPrefix), Namer(DesksharePrefix));
  }

  /** Every filler name in the list reads back as a slot of the sorted
      events, and the padding is exactly the one that slot calls for. */
  lemma PaddingNameReadsBack(events: seq<Event>, first: int, last: int, prefix: string, k: nat)
    requires 0 < |events| && k < |Paddings(events, first, last, prefix)|
    ensures SlotOf(prefix, Paddings(events, first, last, prefix)[k].stream).Some?
    ensures ValidSlot(SlotOf(prefix, Paddings(events, first, last, prefix)[k].stream).value, |events|)
    ensures Paddings(events, first, last, prefix)[k]
         == SlotPadding(SortByStart(events), first, last, Namer(prefix),
                        SlotOf(prefix, Paddings(events, first, last, prefix)[k].stream).value)
  {
    var sorted := SortByStart(events);
    var slots := PositiveSlots(sorted, first, last, 0);
    PlanMatchesSlots(sorted, first, last, Namer(prefix));
    PositiveSlotsSound(sorted, first, last, 0);
    assert Paddings(events, first, last, prefix)[k] == SlotPadding(sorted, first, last, Namer(prefix), slots[k]);
    SlotOfStreamName(prefix, slots[k]);
  }

  // ----- When each padding is emitted -----

  /** The earliest start timestamp among the events. */
  function EarliestStart(events: seq<Event>): (r: int)
    requires 0 < |events|
    ensures forall e :: e in events ==> r <= e.start
    ensures exists e :: e in events && e.start == r
  {
    if |events| == 1 then events[0].start
    else
      var rest := EarliestStart(events[1..]);
      assert events == [events[0]] + events[1..];
      if events[0].start <= rest then events[0].start else rest
  }

  /** Any sorted arrangement of the events begins at the earliest start. */
  lemma SortedHeadIsEarliestOf(sorted: seq<Event>, events: seq<Event>)
    requires 0 < |events| && 0 < |sorted| && SortedByStart(sorted)
    requires forall e :: e in sorted <==> e in events
    ensures sorted[0].start == EarliestStart(events)
  {
    assert sorted[0] in sorted;
    var e :| e in events && e.start == EarliestStart(events);
    var j :| 0 <= j < |sorted| && sorted[j] == e;
    assert sorted[0].start <= sorted[j].start;
  }

  /** The first event after sorting starts at the earliest start. */
  lemma SortedHeadIsEarliest(events: seq<Event>)
    requires 0 < |events|
    ensures SortByStart(events)[0].start == EarliestStart(events)
  {
    SortKeepsEvents(events);
    SortedHeadIsEarliestOf(SortByStart(events), events);
  }

  /** A leading padding is emitted exactly when every event starts after
      `first`. Its bounds are those `PaddingNameReadsBack` gives the leading
      slot: from `first` to a tick before the earliest start. */
  lemma LeadingPaddingIff(events: seq<Event>, first: int, last: int, prefix: string)
    requires 0 < |events|
    ensures (exists k :: 0 <= k < |Paddings(events, first, last, prefix)|
                         && Paddings(events, first, last, prefix)[k].stream == prefix + "blank-beginning.flv")
        <==> first < EarliestStart(events)
  {
    SortedHeadIsEarliest(events);
    StreamNamesSpelled(prefix, 0);
    SlotEmitted(events, first, last, prefix, Leading);
  }

  /** No padding is named for an index that has no neighbouring pair. */
  lemma NoPaddingBeyondLastPair(events: seq<Event>, first: int, last: int, prefix: string, i: nat)
    requires 0 < |events| <= i + 1
    ensures forall k :: 0 <= k < |Paddings(events, first, last, prefix)| ==>
      Paddings(events, first, last, prefix)[k].stream != StreamName(prefix, Between(i))
  {
    var out := Paddings(events, first, last, prefix);
    NamerInjective(prefix);
    PaddingsArePlanned(events, first, last, prefix);
    forall k | 0 <= k < |out|
      ensures out[k].stream != StreamName(prefix, Between(i))
    {
      if out[k].stream == StreamName(prefix, Between(i)) {
        NamedSlotPositive(SortByStart(events), first, last, Namer(prefix), Between(i), k);
      }
    }
  }

  /** A padding named for index `i` is emitted exactly when `i` is the
      index of a neighbouring pair of the sorted events whose gap is
      positive: the next one starts after the previous one stops. */
  lemma InteriorPaddingIff(events: seq<Event>, first: int, last: int, prefix: string, i: nat)
    requires 0 < |events|
    ensures (exists k :: 0 <= k < |Paddings(events, first, last, prefix)|
                         && Paddings(events, first, last, prefix)[k].stream == prefix + "blank-" + NatToString(i) + ".flv")
        <==> i + 1 < |events| && SortByStart(events)[i].stop < SortByStart(events)[i + 1].start
  {
    StreamNamesSpelled(prefix, i);
    if i + 1 < |events| {
      SlotEmitted(events, first, last, prefix, Between(i));
    } else {
      NoPaddingBeyondLastPair(events, first, last, prefix, i);
    }
  }

  /** A trailing padding is emitted exactly when the last event after
      sorting stops before `last`. */
  lemma TrailingPaddingIff(events: seq<Event>, first: int, last: int, prefix: string)
    requires 0 < |events|
    ensures (exists k :: 0 <= k < |Paddings(events, first, last, prefix)|
                         && Paddings(events, first, last, prefix)[k].stream == prefix + "blank-end.flv")
        <==> SortByStart(events)[|events| - 1].stop < last
  {
    StreamNamesSpelled(prefix, 0);
    SlotEmitted(events, first, last, prefix, Trailing);
  }

  // ----- The timeline the paddings fill -----

  /** For well-formed events, each padding starts after every earlier
      padding has both started and stopped. */
  lemma PaddingsInTimeOrder(events: seq<Event>, first: int, last: int, prefix: string)
    requires 0 < |events| && AllWellFormed(events)
    ensures forall j, k :: 0 <= j < k < |Paddings(events, first, last, prefix)| ==>
      && Paddings(events, first, last, prefix)[j].start < Paddings(events, first, last, prefix)[k].start
      && Paddings(events, first, last, prefix)[j].stop < Paddings(events, first, last, prefix)[k].start
  {
    SortKeepsWellFormed(events);
    PaddingsArePlanned(events, first, last, prefix);
    PaddingsStrictlyOrdered(SortByStart(events), first, last, Namer(prefix));
  }

  /** Every timestamp from `first` up to `last - 1` lies in an event or in a
      padding. */
  lemma PaddingsCoverTimeline(events: seq<Event>, first: int, last: int, prefix: string, t: int)
    requires 0 < |events| && first <= t < last
    ensures Covered(events, Paddings(events, first, last, prefix), t)
  {
    SortKeepsEvents(events);
    CoversUpToLast(SortByStart(events), first, last, Namer(prefix), t);
  }

  /** When the events are well-formed and every one stops before `last`,
      nothing covers `last` itself. */
  lemma LastTimestampLeftUncovered(events: seq<Event>, first: int, last: int, prefix: string)
    requires 0 < |events| && AllWellFormed(events)
    requires forall k :: 0 <= k < |events| ==> events[k].stop < last
    ensures !Covered(events, Paddings(events, first, last, prefix), last)
  {
    var sorted := SortByStart(events);
    SortKeepsEvents(events);
    SortKeepsWellFormed(events);
    forall k | 0 <= k < |sorted|
      ensures sorted[k].stop < last
    {
      assert sorted[k] in events;
    }
    LastTimestampUncovered(sorted, first, last, Namer(prefix));
  }

  /** When every event is well-formed and lies within `[first, last]`,
      every padding lies within `[first, last - 1]`. */
  lemma PaddingsStayInTimeline(events: seq<Event>, first: int, last: int, prefix: string)
    requires 0 < |events| && AllWellFormed(events)
    requires forall k :: 0 <= k < |events| ==> first <= events[k].start && events[k].stop <= last
    ensures forall p :: p in Paddings(events, first, last, prefix) ==> first <= p.start && p.stop <= last - 1
  {
    var sorted := SortByStart(events);
    SortKeepsEvents(events);
    SortKeepsWellFormed(events);
    forall k | 0 <= k < |sorted|
      ensures first <= sorted[k].start && sorted[k].stop <= last
    {
      assert sorted[k] in events;
    }
    PaddingsWithinTimeline(sorted, first, last, Namer(prefix));
  }

  /** Well-formed events that share no timestamp, passed in any order, get
      paddings that overlap none of them. */
  lemma PaddingsAvoidDisjointEvents(events: seq<Event>, first: int, last: int, prefix: string)
    requires 0 < |events| && Disjoint(events) && AllWellFormed(events)
    ensures forall p, e :: p in Paddings(events, first, last, prefix) && e in events ==>
      p.stop < e.start || e.stop < p.start
  {
    var sorted := SortByStart(events);
    SortKeepsEvents(events);
    SortKeepsWellFormed(events);
    SortKeepsDisjoint(events);
    SortedDisjointIsSeparated(sorted);
    PaddingsAvoidEvents(sorted, first, last, Namer(prefix));
  }

  // ----- The order the events come in -----

  /** Events already sorted by start are planned in the order given: the
      result is the planner's on them. */
  lemma SortedInputPlannedAsGiven(events: seq<Event>, first: int, last: int, prefix: string)
    requires SortedByStart(events)
    ensures PaddingsFor(events, first, last, prefix) == PlanPaddings(events, first, last, Namer(prefix))
  {
    SortSortedIsIdentity(events);
  }

  /** Planning a second time on the array the first call sorted in place
      gives the same list. */
  lemma ReplanningSortedEventsIsStable(events: seq<Event>, first: int, last: int, prefix: string)
    ensures PaddingsFor(SortByStart(events), first, last, prefix) == PaddingsFor(events, first, last, prefix)
  {
    SortIdempotent(events);
  }

  /** When no two events share a start, the order the events are passed in
      does not matter: every arrangement of the same events gets the same
      list. */
  lemma InputOrderIrrelevant(a: seq<Event>, b: seq<Event>, first: int, last: int, prefix: string)
    requires multiset(a) == multiset(b)
    requires DistinctStarts(a)
    ensures PaddingsFor(a, first, last, prefix) == PaddingsFor(b, first, last, prefix)
  {
    SortKeepsEvents(a);
    SortedPermutationUnique(SortByStart(a), SortByStart(b));
  }

  // ----- Worked examples -----

  /** The video filler names, spelled out. */
  lemma VideoNames()
    ensures Namer(VideoPrefix)(Leading) == "blank-beginning.flv"
    ensures Namer(VideoPrefix)(Between(0)) == "blank-0.flv"
    ensures Namer(VideoPrefix)(Trailing) == "blank-end.flv"
  {
    assert NatToString(0) == "0";
  }

  /** The deskshare filler names, spelled out. */
  lemma DeskshareNames()
    ensures Namer(DesksharePrefix)(Leading) == "ds-blank-beginning.flv"
    ensures Namer(DesksharePrefix)(Between(0)) == "ds-blank-0.flv"
    ensures Namer(DesksharePrefix)(Trailing) == "ds-blank-end.flv"
  {
    assert NatToString(0) == "0";
  }

  /** Two segments with gaps all round: a leading, an interior and a
      trailing padding. */
  lemma ExampleGapsAllRound()
    ensures GenerateVideoPaddings([Event(10, 50), Event(80, 120)], 0, 200)
         == Success([Padding(0, 9, true, "blank-beginning.flv"),
                     Padding(51, 79, true, "blank-0.flv"),
                     Padding(121, 199, true, "blank-end.flv")])
  {
    var events := [Event(10, 50), Event(80, 120)];
    var name := Namer(VideoPrefix);
    SortedInputPlannedAsGiven(events, 0, 200, VideoPrefix);
    VideoNames();
    InteriorStep(events, 0, name);
    var video := [Padding(0, 9, true, "blank-beginning.flv"),
                  Padding(51, 79, true, "blank-0.flv"),
                  Padding(121, 199, true, "blank-end.flv")];
    assert LeadingPadding(events, 0, name) == [video[0]];
    assert InteriorPaddings(events, 0, name) == [video[1]];
    assert TrailingPadding(events, 200, name) == [video[2]];
    assert [video[0]] + [video[1]] + [video[2]] == video;
    assert GenerateVideoPaddings(events, 0, 200) == PaddingsFor(events, 0, 200, VideoPrefix);
  }

  /** The deskshare planner on the same segments: the same records, named
      with `ds-` in front. */
  lemma ExampleDeskshareGapsAllRound()
    ensures GenerateDesksharePaddings([Event(10, 50), Event(80, 120)], 0, 200)
         == Success([Padding(0, 9, true, "ds-blank-beginning.flv"),
                     Padding(51, 79, true, "ds-blank-0.flv"),
                     Padding(121, 199, true, "ds-blank-end.flv")])
  {
    var events := [Event(10, 50), Event(80, 120)];
    var name := Namer(DesksharePrefix);
    SortedInputPlannedAsGiven(events, 0, 200, DesksharePrefix);
    DeskshareNames();
    InteriorStep(events, 0, name);
    var desk := [Padding(0, 9, true, "ds-blank-beginning.flv"),
                 Padding(51, 79, true, "ds-blank-0.flv"),
                 Padding(121, 199, true, "ds-blank-end.flv")];
    assert LeadingPadding(events, 0, name) == [desk[0]];
    assert InteriorPaddings(events, 0, name) == [desk[1]];
    assert TrailingPadding(events, 200, name) == [desk[2]];
    assert [desk[0]] + [desk[1]] + [desk[2]] == desk;
    assert GenerateDesksharePaddings(events, 0, 200) == PaddingsFor(events, 0, 200, DesksharePrefix);
  }

  /** The same segments passed out of order give the same list. */
  lemma ExampleUnsortedInput()
    ensures GenerateVideoPaddings([Event(80, 120), Event(10, 50)], 0, 200)
         == GenerateVideoPaddings([Event(10, 50), Event(80, 120)], 0, 200)
  {
    var a := [Event(80, 120), Event(10, 50)];
    var b := [Event(10, 50), Event(80, 120)];
    assert multiset(a) == multiset(b);
    InputOrderIrrelevant(a, b, 0, 200, VideoPrefix);
  }

  /** Touching segments inside a timeline they fill exactly: one padding,
      which stops a tick before it starts. */
  lemma ExampleTouchingSegments()
    ensures GenerateVideoPaddings([Event(5, 20), Event(21, 40)], 5, 40)
         == Success([Padding(21, 20, true, "blank-0.flv")])
  {
    var events := [Event(5, 20), Event(21, 40)];
    var name := Namer(VideoPrefix);
    SortedInputPlannedAsGiven(events, 5, 40, VideoPrefix);
    VideoNames();
    InteriorStep(events, 0, name);
    assert LeadingPadding(events, 5, name) == [];
    assert InteriorPaddings(events, 0, name) == [Padding(21, 20, true, "blank-0.flv")];
    assert TrailingPadding(events, 40, name) == [];
    var expected := [Padding(21, 20, true, "blank-0.flv")];
    assert [] + expected + [] == expected;
    assert PlanPaddings(events, 5, 40, name) == Success(expected);
    assert GenerateVideoPaddings(events, 5, 40) == PaddingsFor(events, 5, 40, VideoPrefix);
  }

  /** Two arrangements that both sort by start, differing only in the order
      of two events with the same start, get different lists: the padding
      after them begins after whichever comes second. When `{0, 10}` comes
      first, that padding, `{6, 19}`, overlaps it. */
  lemma ExampleTieOrderMatters()
    ensures PlanPaddings([Event(0, 10), Event(0, 5), Event(20, 30)], 0, 40, Namer(VideoPrefix))
         != PlanPaddings([Event(0, 5), Event(0, 10), Event(20, 30)], 0, 40, Namer(VideoPrefix))
    ensures PlanPaddings([Event(0, 10), Event(0, 5), Event(20, 30)], 0, 40, Namer(VideoPrefix)).Success?
    ensures |PlanPaddings([Event(0, 10), Event(0, 5), Event(20, 30)], 0, 40, Namer(VideoPrefix)).value| > 0
    ensures PlanPaddings([Event(0, 10), Event(0, 5), Event(20, 30)], 0, 40, Namer(VideoPrefix)).value[0].start == 6
    ensures PlanPaddings([Event(0, 10), Event(0, 5), Event(20, 30)], 0, 40, Namer(VideoPrefix)).value[0].stop == 19
  {
    var a := PlanPaddings([Event(0, 10), Event(0, 5), Event(20, 30)], 0, 40, Namer(VideoPrefix));
    var b := PlanPaddings([Event(0, 5), Event(0, 10), Event(20, 30)], 0, 40, Namer(VideoPrefix));
    assert a.value[0].start == 6;
    assert a.value[0].stop == 19;
    assert b.value[0].start == 11;
  }
}
